=== FILE: README.md ===
# steamserv-rs install/update bookkeeping in Dafny

This project models the core of `steamserv-rs`, a wrapper around the SteamCMD
command-line tool that installs and updates dedicated game servers. The model
covers four parts:

- **Registry** (`src/utils/config.rs`): `Config`, `InstalledServer`,
  `ServerCache` and `ServerInfo`, plus a `LoginType` enum. `steam.rs` imports
  `config::LoginType` and sets a `login_type` field, but `config.rs` defines
  neither the enum nor that field of `InstalledServer`; the model adds both.
  It also covers the defaults, the "missing file is a first run" rule of
  `load`, and the registry that `init` writes.
- **Install and update workflows** (`src/core/steam.rs`):
  - how the install directory, the credentials and the app id are decided;
  - the catalog check;
  - the four-argument SteamCMD command line;
  - the registry change each workflow makes once the tool has succeeded.
- **List filter** (`src/cli/list.rs`): the case-insensitive name filter over
  catalog and installed entries, and which store `list` reads.
- **Progress value** (`src/utils/progress.rs`): `new`, `update`, `tick`, the
  spinner glyph for a position, and the cells of the bar.

Everything is a pure function over immutable datatypes:

- Every interactive prompt takes its answer from a script (`Prompts.Answer`:
  `Yes`, `No`, `Line`, `Pick`, `Cancel`). An answer that is missing,
  cancelled or of the wrong kind makes the prompt fail. The source passes
  that failure up with `?`.
- The external tool's exit is the boolean `exitOk`.
- The clock is the parameter `now`.
- Files are `Registry.Stored` values: `Missing`, `Unreadable` or `Present`.
- An operation's result is an `Outcome`. It records:
  - the tool run the operation started, if any;
  - the registry it saved, if any;
  - how it ended.

A Rust panic is `Err(Panic(site))`: an `unwrap` on `None`, or the remainder
by zero of an empty spinner. The process aborts there, so nothing is saved.

The model keeps four quirks of the code as written:

- A declined server-name hint still names the directory. The name typed
  instead is read and then dropped (`SteamCmd.RejectedNameIsDiscarded`).
- A declined app-id hint is replaced by whatever id is typed next. That id is
  not checked against the catalog. If it does not parse, the process panics
  (`SteamCmd.ReenteredIdIsNotChecked`, `SteamCmd.UnparsableReentryPanics`).
- An update target that is typed by hand and not registered makes the process
  panic (`SteamCmd.UnregisteredTargetPanics`).
- An install does not check that no entry has its name yet. An update by a
  duplicated name reaches only the earlier entry
  (`SteamCmd.UpdateAfterDuplicateInstall`).

Behaviour of the code kept by the model:

- Nothing in the code uninstalls a server. The entry point's `Uninstall` and
  `Update` arms only print a message, so `update` is never dispatched.
- An update target that is not registered panics at the `unwrap` of the
  lookup instead of returning an error.
- An id that does not parse panics on the hint path. Without a hint, the
  parse error is returned.
- The installer asks whether to enable auto updates after the tool has run.
  A failure at that prompt therefore leaves a tool run with nothing saved.

## Model

| member | source | states |
|---|---|---|
| Registry.DefaultConfig | src/utils/config.rs:193-204 | the default registry has empty tool and install paths, no cache stamp, no servers, and is not initialized |
| Registry.LoadConfig | src/utils/config.rs:63-72 | a missing registry file loads as the default registry rather than failing; an unreadable one is the only error; a present one loads as stored |
| Registry.SaveThenLoadConfig | src/utils/config.rs:63-88 | loading the registry just saved gives back the same registry |
| Registry.DefaultCache | src/utils/config.rs:259-265 | the default catalog has no servers and is stamped with the current time |
| Registry.LoadCache | src/utils/config.rs:230-239 | a missing cache file loads as the empty catalog; an unreadable one is the only error |
| Registry.UpdateTimestamp | src/core/steam.rs:157-164 | stamping a server sets its last-update instant to now and leaves every other field as it was |
| Registry.InitConfig | src/utils/config.rs:116-122 | the registry built by setup holds the two given paths, no cache stamp, no servers, and no longer needs setup |
| Registry.JoinPath | src/utils/config.rs:183-186 | joining a directory and a leaf keeps the directory as a prefix and ends in the leaf; an empty directory gives the leaf alone; otherwise exactly one `/` separates them unless the directory already ends in `/`, in which case nothing is inserted |
| Registry.InstallSteamCmd | src/utils/config.rs:140-190 | the step succeeds exactly when a directory is typed, the bootstrap is confirmed and the bootstrap succeeds, and then yields the `steamcmd.sh` path joined to the typed directory, which lies under that directory and ends in `steamcmd.sh`; declining is `SteamCmdDeclined`, a failed bootstrap is `BootstrapFailed`, and a failed prompt is `PromptFailed` |
| Registry.Init | src/utils/config.rs:100-129 | setup either yields an initialized registry with no servers and no cache stamp, or fails; it fails with `PromptFailed` unless the first question is answered yes or no; with the tool already installed it holds exactly the two typed paths; after a successful bootstrap it holds the bootstrapped `steamcmd.sh` path and the typed root; a failed bootstrap is `BootstrapFailed` |
| Registry.FirstRunGate | src/main.rs:6-9 | a missing registry triggers setup, and the registry setup saves does not trigger it again when loaded |
| Text.LastSegment | src/core/steam.rs:50 | the server name is the suffix after the last `/`: it holds no `/` and is all of the path or preceded by `/` |
| Text.LastSegmentOfJoin | src/core/steam.rs:50 | the last segment of `base + "/" + name` is `name` whenever `name` holds no `/` |
| Text.Decimal | src/core/steam.rs:199 | the app id is written as decimal digits without leading zeros that denote the id |
| Text.ParseU32 | src/core/steam.rs:357 | a parsed id consists of digits with at most a leading `+`; any digit string that fits in 32 bits parses to its value; a value above `u32::MAX` does not parse; a leading `+` is dropped before the digits are read; the empty text and a lone `+` do not parse |
| Text.ParseOverflow | src/core/steam.rs:357 | a digit string denoting more than `u32::MAX` does not parse, with or without a leading `+` |
| Text.ParsePlus | src/core/steam.rs:357 | a leading `+` before a digit does not change the parsed value |
| Text.ParseDecimal | src/core/steam.rs:199 | parsing the written form of an id gives the id back |
| Text.ContainsIffOccurs | src/cli/list.rs:51 | the substring search holds exactly when the filter occurs at some index of the name |
| Text.Lower | src/cli/list.rs:51 | lower-casing keeps the length, maps each character on its own, and leaves no upper-case ASCII letter |
| SteamCmd.GetForceInstallDir | src/core/steam.rs:251-281 | with a name hint the directory is the install root, `/`, and the hint, whether the hint is confirmed or not; without one it is the root, `/`, and the typed name; only a failed prompt is an error |
| SteamCmd.RejectedNameIsDiscarded | src/core/steam.rs:256-270 | after a declined hint, any typed replacement gives the same directory, which is built from the hint |
| SteamCmd.TypedNameIsRecovered | src/core/steam.rs:272-277 | without a hint, the server name taken from the directory's last segment (line 50) is the typed name, provided it holds no `/` |
| SteamCmd.GetLogin | src/core/steam.rs:296-328 | the username `anonymous`, or choosing anonymous, gives exactly `("anonymous", "")`; another username hint is kept and paired with the typed password; choosing a Steam account pairs the typed username and password; without a username the prompts succeed exactly when anonymous is picked, or a Steam account is picked and a username and a password are typed, and any other script is a prompt error; the catch-all arm never panics |
| SteamCmd.LoginTypeOf | src/core/steam.rs:52-57 | the recorded login type is Anonymous exactly when the username is `anonymous` |
| SteamCmd.StoredLogin | src/core/steam.rs:135-144 | an update of an anonymous server uses `("anonymous", "")` without prompting; a Steam-account server has its username and password asked again |
| SteamCmd.CheckAppId | src/core/steam.rs:227-235 | the id is found exactly when some catalog entry has it, and the name returned is that of the first such entry; a missing id is `AppNotInCatalog` |
| SteamCmd.ParseAppId | src/core/steam.rs:363 | a typed id that does not parse is the error `AppIdNotNumeric` |
| SteamCmd.GetAppUpdate | src/core/steam.rs:343-380 | a hinted id missing from the catalog is an error; a hinted id in the catalog succeeds exactly when it is confirmed, or declined and followed by a typed id that parses, and a confirmed hint is returned unchanged; only the hint path can panic; without a hint the id succeeds exactly when a typed id parses, is in the catalog, and is confirmed or declined and followed by a typed id that parses; that typed id is returned when confirmed and replaced by the next typed id, which is only parsed, when declined |
| SteamCmd.ReenteredIdIsNotChecked | src/core/steam.rs:352-358 | after a declined hint, the id typed instead is used whenever it parses, catalog or not |
| SteamCmd.UnparsableReentryPanics | src/core/steam.rs:355-379 | after a declined hint, an id typed instead that does not parse panics at the `unwrap` |
| SteamCmd.InstallArgs | src/core/steam.rs:189-200 | the tool receives four arguments in the order force-install-dir, login, app-update, quit |
| SteamCmd.InstallArgsRoundTrip | src/core/steam.rs:189-200 | reading the four arguments back recovers the directory, the username and password, and the app id, when the username holds no space |
| SteamCmd.ExecuteInstallCommand | src/core/steam.rs:185-212 | the tool at the configured path runs with the four arguments built from the request, from which the request can be read back when the username holds no space, and an exit without success is `CommandFailed` |
| SteamCmd.NewServer | src/core/steam.rs:71-80 | the new entry carries the resolved id, the directory, the directory's last segment as name, no port, install and update instants of now, and the derived login type |
| SteamCmd.PlanInstall | src/core/steam.rs:38-48 | the request is built from the prompts in source order: the directory `get_force_install_dir` yields, then the login `get_login` yields from the rest of the script, then the id `get_app_update` yields from what is left; the plan succeeds whenever those three steps succeed; a hinted name gives its directory, a hinted username is kept (anonymous credentials for `anonymous`), and a hinted id is in the catalog |
| SteamCmd.Install | src/core/steam.rs:29-89 | the tool runs with exactly the planned request, as its four arguments, at the configured path whenever the plan succeeds; the registry is saved exactly when the run succeeds and the auto-update question is answered; the saved registry is the loaded one with exactly one entry appended, describing the request and carrying the auto-update answer; a failed prompt before the run aborts with that error and runs nothing |
| SteamCmd.ChooseTarget | src/core/steam.rs:108-131 | a registered hint is used without a prompt; an unregistered one is replaced by a typed name; without a hint the target is the registered name the user selects |
| SteamCmd.FindServer | src/core/steam.rs:133 | the lookup finds the first entry with the name, and finds none exactly when the name is not registered |
| SteamCmd.TargetLogin | src/core/steam.rs:133-144 | an update target that is not registered is the lookup's panic; a registered one uses the stored login of the first entry with its name |
| SteamCmd.Update | src/core/steam.rs:104-169 | the tool runs, with the four arguments of its request, on the stored directory and app id of the first entry named by the chosen target, with that entry's stored login: anonymous without prompting, otherwise the username and password asked again; the tool runs whenever the target is registered and the login prompts succeed, and a failed run is `CommandFailed` and saves nothing; after it succeeds, only that entry's last-update instant changes, and it is saved |
| SteamCmd.RunUpdate | src/core/steam.rs:146-164 | the tool runs at the configured path with the arguments of the entry's directory and app id and the given login; a successful run stamps that entry only, a failed one saves nothing and is `CommandFailed` |
| SteamCmd.UnregisteredTargetPanics | src/core/steam.rs:113-133 | a hand-typed update target that is not registered aborts before the tool runs |
| SteamCmd.UpdateRegistered | src/core/steam.rs:113-155 | updating a registered name runs the tool exactly when the stored login's prompts succeed, with that login and the first matching entry's directory and app id |
| SteamCmd.FindAppended | src/core/steam.rs:133 | a name no earlier entry carries is found at the entry appended with it |
| SteamCmd.UpdateAfterInstall | src/core/steam.rs:52-155 | updating the entry an install appended, when no earlier entry has its name, reruns the tool on the same directory and id, anonymously with no prompt when installed anonymously, asking for username and password otherwise |
| SteamCmd.FindBeforeAppended | src/core/steam.rs:133 | appending an entry does not move the first match of a name that is already registered |
| SteamCmd.UpdateAfterDuplicateInstall | src/core/steam.rs:50-164 | when an install registers a name an earlier entry already has, an update by that name works on the earlier entry: it runs exactly when that entry's stored login prompts succeed, on its directory and app id, and on success stamps the earlier entry and keeps the new one as installed |
| ListCommand.KeepMatching | src/cli/list.rs:48-52 | filtering keeps an order-preserving subsequence whose elements all pass, with every passing element kept as often as it occurs |
| ListCommand.FilterByName | src/cli/list.rs:48-55 | no filter lists every entry in order; a filter lists, in order, exactly the entries whose lower-cased name contains the lower-cased filter |
| ListCommand.ListAvailable | src/cli/list.rs:44-55 | the catalog listing is the order-preserving subsequence of entries whose name matches the filter, or everything without one |
| ListCommand.ListInstalled | src/cli/list.rs:82-93 | the installed listing applies the same name test to installed entries |
| ListCommand.FilterIgnoresCase | src/cli/list.rs:51 | a filter and its lower-case form list the same entries |
| ListCommand.EmptyFilterKeepsAll | src/cli/list.rs:51 | the empty filter lists every entry |
| ListCommand.FilterIdempotent | src/cli/list.rs:48-52 | filtering twice with the same filter equals filtering once |
| ListCommand.HandleList | src/cli/list.rs:17-28 | `installed` lists the registry's servers and reads only the registry file; otherwise the catalog is listed and only the cache file is read; the listing is exactly the filtered contents of that store |
| ProgressBar.DefaultStyle | src/utils/progress.rs:9-13 | the default style is the bar |
| ProgressBar.DefaultSpinner | src/utils/progress.rs:168-172 | the default spinner has ten pairwise different glyphs |
| ProgressBar.New | src/utils/progress.rs:39-48 | a new progress value starts at position 0 and keeps the given total, message and style |
| ProgressBar.Update | src/utils/progress.rs:63-67 | update sets the position and changes nothing else; it fails only for a spinner without states |
| ProgressBar.Tick | src/utils/progress.rs:150-156 | a tick moves a spinner exactly one position and leaves a bar unchanged |
| ProgressBar.SpinnerGlyph | src/utils/progress.rs:142-148 | the glyph is one of the spinner's states, the state at the position itself while the position is below the number of states; an empty state list panics |
| ProgressBar.SpinnerGlyphPeriodic | src/utils/progress.rs:142-143 | the glyph at a position is the glyph at that position modulo the number of states, and repeats after a full cycle |
| ProgressBar.TicksAdvance | src/utils/progress.rs:150-156 | `n` ticks move a drawable spinner `n` positions and leave a bar where it was |
| ProgressBar.DefaultSpinnerPeriod | src/utils/progress.rs:142-143 | with the default spinner, two positions show the same glyph exactly when they agree modulo 10 |
| ProgressBar.SpinnerCycles | src/utils/progress.rs:142-156 | as many ticks as the spinner has states bring back the glyph it showed |
| ProgressBar.BarCells | src/utils/progress.rs:112-122 | the bar has 50 cells, each `=` or blank |
| ProgressBar.BarFillCount | src/utils/progress.rs:116-122 | the bar draws `min(filled + 1, 50)` `=` cells, because the test is `i <= filled` |

## Left out

- Terminal prompts: each `inquire` prompt is a scripted answer. Defaults chosen by pressing enter (`with_default`) are not modelled: the script always gives an explicit answer.
- Starting the external tool, piping its output and waiting for it. The output handling in `run_with_output` is not part of this model. Spawn, output and wait errors are folded into the single outcome `exitOk`.
- `Config::save` and `ServerCache::save` always succeed in the model. A write error after a successful tool run is not modelled.
- TOML and JSON encoding, the `dirs::config_dir` location of both files, and the filesystem. Loading and saving work on an abstract `Stored` value.
- The download, `tar` extraction and first start of SteamCMD in `install_steamcmd`. They are network and subprocess work, and the model reduces them to the outcome `bootstrapOk`.
- SteamCmd.NewServer: takes one instant `now` for both `install_date` and `last_updated`. The source reads the clock twice in a row, so the two stamps may differ by the time between the reads.
- Clock reads: `now` is a parameter. `update_timestamp` is not part of this model, so it is taken to set only `last_updated`.
- The floating-point percentage and fill computation of `render_bar`, including a zero `total`. The bar's integer fill position `filled` is an input.
- Printing in `list.rs` and `progress.rs`, and `Progress::finish`, which only prints.
- Argument parsing and dispatch in `src/cli/commands.rs`, `src/cli/mod.rs` and `src/main.rs`, and the re-exports in `src/lib.rs` and `src/utils/mod.rs`. The one exception is the first-run test in `main.rs`.
- Catalog refresh (`update_cache`, called by the entry point after setup). Its definition is not part of this model.
- The `Uninstall` and `Config` commands: the entry point only prints a message for them, so there is no behaviour to model.
- Text.Lower: lower-cases ASCII letters only. Rust's `to_lowercase` folds all Unicode letters, and can change a string's length. So the filter's case-insensitivity is proved only for ASCII.
- ProgressBar.Tick: the position is an unbounded natural number. The overflow of `usize` at 2^64 - 1 is not modelled.
- Paths are plain strings: `PathBuf::from` and `display()` are taken as the identity on the text.

=== FILE: base.dfy ===
/** Shared vocabulary of the model: optional values, the error taxonomy of the
    install/update workflows, and the fixed-width integers the Rust source uses. */
module Base {

  /** Rust's `u32`, used for Steam app ids. */
  const MaxU32: nat := 0xFFFF_FFFF
  type U32 = n: nat | n <= MaxU32

  /** Rust's `u16`, used for the optional server port. */
  type U16 = n: nat | n < 0x1_0000

  datatype Option<+T> = None | Some(value: T)

  /** Where an `unwrap` on `None` would abort the process. */
  datatype PanicSite =
    | AppIdNotParsed        // re-entered app id that is not a u32, on the hint path
    | ServerNotRegistered   // update target that is not in the registry
    | LoginChoiceUnknown    // a login choice other than the two offered
    | EmptySpinner          // `current % 0` with a spinner that has no states

  /** Every way an operation of the model can end without success. */
  datatype Error =
    | PromptFailed          // an interactive prompt returned an error (cancelled, nothing to select)
    | StoreUnreadable       // a config or cache file exists but cannot be read or parsed
    | AppNotInCatalog       // "Could not find server": the app id is not in the catalog
    | AppIdNotNumeric       // a typed app id does not parse as u32 and the error is propagated
    | CommandFailed         // the external tool exited without success
    | SteamCmdDeclined      // first-run setup declined to install the external tool
    | BootstrapFailed       // download, extraction or first start of the external tool failed
    | Panic(site: PanicSite)

  datatype Result<+T> = Ok(value: T) | Err(error: Error) {
    predicate IsFailure() {
      Err?
    }

    function PropagateFailure<U>(): Result<U>
      requires Err?
    {
      Err(error)
    }

    function Extract(): T
      requires Ok?
    {
      value
    }
  }
}

=== FILE: list_command.dfy ===
/** The `list` command of `src/cli/list.rs`: which store is listed, and the
    case-insensitive name filter applied to catalog and installed entries. */
module ListCommand {
  import opened Base
  import opened Text
  import opened Registry

  /** `name.to_lowercase().contains(&filter.to_lowercase())`. */
  predicate NameMatches(name: string, filter: string) {
    Contains(Lower(name), Lower(filter))
  }

  /** `a` can be obtained from `b` by deleting elements. */
  predicate IsSubsequence<T(==)>(a: seq<T>, b: seq<T>)
    decreases |b|
  {
    |a| == 0 || (|b| > 0 && ((a[0] == b[0] && IsSubsequence(a[1..], b[1..])) || IsSubsequence(a, b[1..])))
  }

  /** `iter().filter(keep).collect()`. */
  function KeepMatching<T(==)>(xs: seq<T>, keep: T -> bool): (r: seq<T>)
    ensures IsSubsequence(r, xs)
    ensures forall i :: 0 <= i < |r| ==> keep(r[i])
    ensures multiset(r) <= multiset(xs)
    ensures forall x | x in xs && keep(x) :: multiset(r)[x] == multiset(xs)[x]
  {
    if |xs| == 0 then []
    else
      var rest := KeepMatching(xs[1..], keep);
      assert xs == [xs[0]] + xs[1..];
      if keep(xs[0]) then [xs[0]] + rest else rest
  }

  /** Two tests that agree on every element keep the same elements. */
  lemma {:induction false} KeepMatchingAgree<T>(xs: seq<T>, k1: T -> bool, k2: T -> bool)
    requires forall x :: k1(x) == k2(x)
    ensures KeepMatching(xs, k1) == KeepMatching(xs, k2)
  {
    if |xs| > 0 {
      KeepMatchingAgree(xs[1..], k1, k2);
    }
  }

  /** A test every element passes keeps the whole sequence. */
  lemma {:induction false} KeepMatchingAll<T>(xs: seq<T>, keep: T -> bool)
    requires forall i :: 0 <= i < |xs| ==> keep(xs[i])
    ensures KeepMatching(xs, keep) == xs
  {
    if |xs| > 0 {
      KeepMatchingAll(xs[1..], keep);
      assert xs == [xs[0]] + xs[1..];
    }
  }

  /** Filtering what is already filtered changes nothing. */
  lemma {:induction false} KeepMatchingIdempotent<T>(xs: seq<T>, keep: T -> bool)
    ensures KeepMatching(KeepMatching(xs, keep), keep) == KeepMatching(xs, keep)
  {
    KeepMatchingAll(KeepMatching(xs, keep), keep);
  }

  /** The filter shared by both listings: no filter lists everything, a
      filter lists the entries whose name contains it, ignoring case, in
      their original order. */
  function FilterByName<T(==)>(xs: seq<T>, nameOf: T -> string, filter: Option<string>): (r: seq<T>)
    ensures filter.None? ==> r == xs
    ensures IsSubsequence(r, xs) && multiset(r) <= multiset(xs)
    ensures filter.Some? ==> forall i :: 0 <= i < |r| ==> NameMatches(nameOf(r[i]), filter.value)
    ensures filter.Some? ==>
              forall x | x in xs && NameMatches(nameOf(x), filter.value) :: multiset(r)[x] == multiset(xs)[x]
  {
    match filter
    case None =>
      assert IsSubsequence(xs, xs) by { KeepMatchingAll(xs, _ => true); }
      xs
    case Some(f) => KeepMatching(xs, x => NameMatches(nameOf(x), f))
  }

  /** `list_available_servers`. */
  function ListAvailable(servers: seq<ServerInfo>, filter: Option<string>): (r: seq<ServerInfo>)
    ensures filter.None? ==> r == servers
    ensures IsSubsequence(r, servers) && multiset(r) <= multiset(servers)
    ensures filter.Some? ==> forall i :: 0 <= i < |r| ==> NameMatches(r[i].name, filter.value)
    ensures filter.Some? ==>
              forall s | s in servers && NameMatches(s.name, filter.value) :: multiset(r)[s] == multiset(servers)[s]
  {
    FilterByName(servers, (s: ServerInfo) => s.name, filter)
  }

  /** `list_installed_servers`: the same test, on the installed name. */
  function ListInstalled(servers: seq<InstalledServer>, filter: Option<string>): (r: seq<InstalledServer>)
    ensures filter.None? ==> r == servers
    ensures IsSubsequence(r, servers) && multiset(r) <= multiset(servers)
    ensures filter.Some? ==> forall i :: 0 <= i < |r| ==> NameMatches(r[i].name, filter.value)
    ensures filter.Some? ==>
              forall s | s in servers && NameMatches(s.name, filter.value) :: multiset(r)[s] == multiset(servers)[s]
  {
    FilterByName(servers, (s: InstalledServer) => s.name, filter)
  }

  /** A filter and its lower-case form list the same entries. */
  lemma FilterIgnoresCase<T>(xs: seq<T>, nameOf: T -> string, f: string)
    ensures FilterByName(xs, nameOf, Some(f)) == FilterByName(xs, nameOf, Some(Lower(f)))
  {
    LowerIdempotent(f);
    KeepMatchingAgree(xs, x => NameMatches(nameOf(x), f), x => NameMatches(nameOf(x), Lower(f)));
  }

  /** The empty filter lists everything. */
  lemma EmptyFilterKeepsAll<T>(xs: seq<T>, nameOf: T -> string)
    ensures FilterByName(xs, nameOf, Some("")) == xs
  {
    forall i | 0 <= i < |xs|
      ensures NameMatches(nameOf(xs[i]), "")
    {
      assert Lower("") == "";
      ContainsEmpty(Lower(nameOf(xs[i])));
    }
    KeepMatchingAll(xs, x => NameMatches(nameOf(x), ""));
  }

  /** Applying a filter to its own result changes nothing. */
  lemma FilterIdempotent<T>(xs: seq<T>, nameOf: T -> string, filter: Option<string>)
    ensures FilterByName(FilterByName(xs, nameOf, filter), nameOf, filter) == FilterByName(xs, nameOf, filter)
  {
    if filter.Some? {
      KeepMatchingIdempotent(xs, x => NameMatches(nameOf(x), filter.value));
    }
  }

  /** What `list` shows. */
  datatype Listing = Installed(installed: seq<InstalledServer>) | Available(available: seq<ServerInfo>)

  /** `handle_list_command`: `installed` lists the registry and reads only
      the registry file; otherwise the catalog is listed and only the cache
      file is read. */
  function HandleList(installed: bool, filter: Option<string>, configFile: Stored<Config>,
                      cacheFile: Stored<ServerCache>, now: Instant): (r: Result<Listing>)
    ensures installed ==> (r.Err? <==> configFile.Unreadable?)
    ensures !installed ==> (r.Err? <==> cacheFile.Unreadable?)
    ensures r.Ok? ==> (r.value.Installed? <==> installed)
    ensures r.Ok? && installed ==>
              IsSubsequence(r.value.installed, LoadConfig(configFile).value.installed_servers)
              && (filter.None? ==> r.value.installed == LoadConfig(configFile).value.installed_servers)
    ensures r.Ok? && !installed ==>
              IsSubsequence(r.value.available, LoadCache(cacheFile, now).value.servers)
              && (filter.None? ==> r.value.available == LoadCache(cacheFile, now).value.servers)
    ensures r.Ok? && installed ==>
              r.value.installed == ListInstalled(LoadConfig(configFile).value.installed_servers, filter)
    ensures r.Ok? && !installed ==>
              r.value.available == ListAvailable(LoadCache(cacheFile, now).value.servers, filter)
  {
    if installed then
      var config :- LoadConfig(configFile);
      Ok(Installed(ListInstalled(config.installed_servers, filter)))
    else
      var cache :- LoadCache(cacheFile, now);
      Ok(Available(ListAvailable(cache.servers, filter)))
  }
}

=== FILE: progress_bar.dfy ===
/** The progress indicator of `src/utils/progress.rs`: a value holding the
    position, the total, a message and a style, the spinner glyph shown for a
    position, and the cells of the bar. Drawing to the terminal is not part
    of the model; where drawing would panic, the operation fails. */
module ProgressBar {
  import opened Base

  datatype Style = Bar | Spinner(states: seq<char>)

  /** `ProgressStyle::default()`. */
  function DefaultStyle(): (s: Style)
    ensures s.Bar?
  {
    Bar
  }

  /** `default_spinner()`: ten braille glyphs, all different. */
  function DefaultSpinner(): (s: Style)
    ensures s.Spinner? && |s.states| == 10
    ensures forall i, j :: 0 <= i < j < |s.states| ==> s.states[i] != s.states[j]
  {
    Spinner(['\U{280B}', '\U{2819}', '\U{2839}', '\U{2838}', '\U{283C}',
             '\U{2834}', '\U{2826}', '\U{2827}', '\U{2807}', '\U{280F}'])
  }

  datatype Progress = Progress(current: nat, total: nat, message: string, style: Style)

  /** `Progress::new`. */
  function New(total: nat, message: string, style: Style): (p: Progress)
    ensures p.current == 0
    ensures p.total == total && p.message == message && p.style == style
  {
    Progress(0, total, message, style)
  }

  /** The glyph `render_spinner` shows: the states are cycled through by
      position, and an empty state list divides by zero. */
  function SpinnerGlyph(states: seq<char>, current: nat): (r: Result<char>)
    ensures r.Err? <==> |states| == 0
    ensures r.Err? ==> r.error == Panic(EmptySpinner)
    ensures r.Ok? ==> r.value in states
    ensures current < |states| ==> r == Ok(states[current])
  {
    if |states| == 0 then Err(Panic(EmptySpinner)) else Ok(states[current % |states|])
  }

  /** The glyph depends only on the position modulo the number of states:
      it is the glyph of the reduced position, and it repeats after a full
      cycle. */
  lemma SpinnerGlyphPeriodic(states: seq<char>, current: nat)
    requires |states| > 0
    ensures SpinnerGlyph(states, current) == SpinnerGlyph(states, current % |states|)
    ensures SpinnerGlyph(states, current + |states|) == SpinnerGlyph(states, current)
  {
    var n := |states|;
    ModUnique(current % n, n, 0, current % n);
    ShiftByModulus(current, n);
  }

  /** Whether drawing `p` succeeds: only a spinner without states fails. */
  predicate Drawable(p: Progress) {
    p.style.Spinner? ==> |p.style.states| > 0
  }

  /** `Progress::update`: the position is replaced and the value redrawn. */
  function Update(p: Progress, current: nat): (r: Result<Progress>)
    ensures r.Ok? <==> Drawable(p)
    ensures r.Ok? ==> r.value.current == current
    ensures r.Ok? ==> r.value.(current := p.current) == p
  {
    var q := p.(current := current);
    if Drawable(q) then Ok(q) else Err(Panic(EmptySpinner))
  }

  /** `Progress::tick`: a spinner moves one position and is redrawn; a bar
      is left as it is. */
  function Tick(p: Progress): (r: Result<Progress>)
    ensures r.Ok? <==> Drawable(p)
    ensures p.style.Bar? ==> r == Ok(p)
    ensures p.style.Spinner? && r.Ok? ==> r.value.current == p.current + 1
    ensures r.Ok? ==> r.value.(current := p.current) == p
  {
    match p.style
    case Bar => Ok(p)
    case Spinner(states) =>
      var q := p.(current := p.current + 1);
      var _ :- SpinnerGlyph(states, q.current);
      Ok(q)
  }

  /** `n` ticks in a row. */
  function Ticks(p: Progress, n: nat): Result<Progress>
    decreases n
  {
    if n == 0 then Ok(p)
    else
      var q :- Tick(p);
      Ticks(q, n - 1)
  }

  /** Ticking `n` times moves a drawable spinner `n` positions and leaves a
      bar where it was. */
  lemma {:induction false} TicksAdvance(p: Progress, n: nat)
    requires Drawable(p)
    ensures p.style.Spinner? ==> Ticks(p, n) == Ok(p.(current := p.current + n))
    ensures p.style.Bar? ==> Ticks(p, n) == Ok(p)
    decreases n
  {
    if n > 0 {
      TicksAdvance(Tick(p).value, n - 1);
    }
  }

  /** The default spinner shows the same glyph at two positions exactly when
      they are a multiple of ten apart. */
  lemma DefaultSpinnerPeriod(c: nat, d: nat)
    ensures SpinnerGlyph(DefaultSpinner().states, c).Ok?
    ensures SpinnerGlyph(DefaultSpinner().states, c) == SpinnerGlyph(DefaultSpinner().states, d)
            <==> c % 10 == d % 10
  {
  }

  /** As many ticks as a spinner has states bring it back to the glyph it
      showed. */
  lemma SpinnerCycles(p: Progress)
    requires p.style.Spinner? && |p.style.states| > 0
    ensures Ticks(p, |p.style.states|).Ok?
    ensures SpinnerGlyph(p.style.states, Ticks(p, |p.style.states|).value.current)
         == SpinnerGlyph(p.style.states, p.current)
  {
    var n := |p.style.states|;
    TicksAdvance(p, n);
    ShiftByModulus(p.current, n);
  }

  lemma ShiftByModulus(c: nat, n: nat)
    requires n > 0
    ensures (c + n) % n == c % n
  {
    assert c + n == (c / n + 1) * n + c % n;
    ModUnique(c + n, n, c / n + 1, c % n);
  }

  /** A remainder is determined by any division of `a` by `n`. */
  lemma ModUnique(a: int, n: int, q: int, r: int)
    requires n > 0 && 0 <= r < n && a == q * n + r
    ensures a % n == r
  {
    assert (q - a / n) * n == a % n - r;
    ProductNearZero(q - a / n, n);
  }

  /** The only multiple of `n` strictly between `-n` and `n` is zero. */
  lemma ProductNearZero(k: int, n: int)
    requires n > 0 && -n < k * n < n
    ensures k == 0
  {
  }

  const BarWidth: nat := 50

  /** The cells `render_bar` draws for an integer fill position `filled`:
      cell `i` is `=` when `i <= filled`, blank otherwise. */
  function BarCells(filled: nat): (cells: string)
    ensures |cells| == BarWidth
    ensures forall i :: 0 <= i < |cells| ==> cells[i] == '=' || cells[i] == ' '
  {
    seq(BarWidth, i requires 0 <= i < BarWidth => if i <= filled then '=' else ' ')
  }

  /** The number of `=` cells. */
  function CountFilled(cells: string): nat {
    if |cells| == 0 then 0
    else CountFilled(cells[..|cells| - 1]) + (if cells[|cells| - 1] == '=' then 1 else 0)
  }

  function Min(a: nat, b: nat): nat {
    if a <= b then a else b
  }

  lemma {:induction false} BarPrefixCount(filled: nat, k: nat)
    requires k <= BarWidth
    ensures CountFilled(BarCells(filled)[..k]) == Min(filled + 1, k)
  {
    if k > 0 {
      var cells := BarCells(filled);
      assert cells[..k][..k - 1] == cells[..k - 1];
      BarPrefixCount(filled, k - 1);
    }
  }

  /** Because the test is `i <= filled`, one cell more than `filled` is drawn,
      and never more than the width. */
  lemma BarFillCount(filled: nat)
    ensures CountFilled(BarCells(filled)) == Min(filled + 1, BarWidth)
  {
    BarPrefixCount(filled, BarWidth);
    assert BarCells(filled)[..BarWidth] == BarCells(filled);
  }
}

=== FILE: prompts.dfy ===
/** The interactive prompts of the source (`Confirm`, `Text`, `Password`,
    `Select`) as a script of answers consumed from the front. A prompt whose
    answer is missing, cancelled or of the wrong kind fails, which is what the
    source's `prompt()?` turns into an error of the whole operation. */
module Prompts {
  import opened Base

  datatype Answer =
    | Yes                 // a confirmation accepted
    | No                  // a confirmation declined
    | Line(text: string)  // a line typed at a text or password prompt
    | Pick(index: nat)    // the option chosen at a selection prompt
    | Cancel              // the user aborted the prompt

  /** A prompt's answer together with the script left for later prompts. */
  datatype Asked<+T> = Asked(value: T, rest: seq<Answer>)

  /** `Confirm::new(..).prompt()`. */
  function Confirm(script: seq<Answer>): (r: Result<Asked<bool>>)
    ensures r.Ok? <==> |script| > 0 && (script[0] == Yes || script[0] == No)
    ensures r.Ok? ==> r.value == Asked(script[0] == Yes, script[1..])
    ensures r.Err? ==> r.error == PromptFailed
  {
    if |script| == 0 then Err(PromptFailed)
    else match script[0]
      case Yes => Ok(Asked(true, script[1..]))
      case No => Ok(Asked(false, script[1..]))
      case _ => Err(PromptFailed)
  }

  /** `Text::new(..).prompt()` and `Password::new(..).prompt()`. */
  function Ask(script: seq<Answer>): (r: Result<Asked<string>>)
    ensures r.Ok? <==> |script| > 0 && script[0].Line?
    ensures r.Ok? ==> r.value == Asked(script[0].text, script[1..])
    ensures r.Err? ==> r.error == PromptFailed
  {
    if |script| > 0 && script[0].Line? then Ok(Asked(script[0].text, script[1..]))
    else Err(PromptFailed)
  }

  /** `Select::new(.., options).prompt()`: the answer is always one of the
      options, so selecting from an empty list fails. */
  function Select(options: seq<string>, script: seq<Answer>): (r: Result<Asked<string>>)
    ensures r.Ok? <==> |script| > 0 && script[0].Pick? && script[0].index < |options|
    ensures r.Ok? ==> r.value.value in options && r.value.rest == script[1..]
    ensures r.Ok? ==> r.value.value == options[script[0].index]
    ensures r.Err? ==> r.error == PromptFailed
  {
    if |script| > 0 && script[0].Pick? && script[0].index < |options|
    then Ok(Asked(options[script[0].index], script[1..]))
    else Err(PromptFailed)
  }
}

=== FILE: registry.dfy ===
/** The persisted state of the tool (`src/utils/config.rs`): the registry of
    installed servers with the global paths, and the catalog cache of
    installable apps. The files themselves are abstracted to a store that is
    missing, unreadable, or holds a value. */
module Registry {
  import opened Base
  import opened Prompts
  import Text

  /** A UTC instant; only equality and assignment of instants matter here. */
  type Instant = int

  /** How the external tool logs in for a server; fixed when it is installed. */
  datatype LoginType = Anonymous | SteamAccount

  datatype InstalledServer = InstalledServer(
    app_id: U32,
    name: string,
    install_path: string,
    install_date: Instant,
    last_updated: Instant,
    auto_update: bool,
    port: Option<U16>,
    login_type: LoginType)

  datatype Config = Config(
    steamcmd_path: string,
    install_path: string,
    last_cache_update: Option<Instant>,
    installed_servers: seq<InstalledServer>,
    is_initialized: bool)

  datatype ServerInfo = ServerInfo(app_id: U32, name: string, description: Option<string>)

  datatype ServerCache = ServerCache(servers: seq<ServerInfo>, last_update: Instant)

  /** A file on disk as the loaders see it. */
  datatype Stored<+T> = Missing | Unreadable | Present(content: T)

  /** `Config::default()`: the registry of a first run. */
  function DefaultConfig(): (c: Config)
    ensures c.steamcmd_path == "" && c.install_path == ""
    ensures c.last_cache_update.None? && c.installed_servers == []
    ensures !c.is_initialized
  {
    Config("", "", None, [], false)
  }

  /** `Config::load`: a missing file is a first run, not an error. */
  function LoadConfig(file: Stored<Config>): (r: Result<Config>)
    ensures file.Missing? ==> r == Ok(DefaultConfig())
    ensures file.Present? ==> r == Ok(file.content)
    ensures r.Err? <==> file.Unreadable?
    ensures r.Err? ==> r.error == StoreUnreadable
  {
    match file
    case Missing => Ok(DefaultConfig())
    case Unreadable => Err(StoreUnreadable)
    case Present(c) => Ok(c)
  }

  /** `Config::save`: the whole file is overwritten with the value. */
  function SaveConfig(c: Config): Stored<Config> {
    Present(c)
  }

  /** Loading what was just saved gives the saved registry back. */
  lemma SaveThenLoadConfig(c: Config)
    ensures LoadConfig(SaveConfig(c)) == Ok(c)
  {
  }

  /** `ServerCache::default()`: an empty catalog stamped with the current time. */
  function DefaultCache(now: Instant): (c: ServerCache)
    ensures c.servers == [] && c.last_update == now
  {
    ServerCache([], now)
  }

  /** `ServerCache::load`: a missing file is an empty catalog, not an error. */
  function LoadCache(file: Stored<ServerCache>, now: Instant): (r: Result<ServerCache>)
    ensures file.Missing? ==> r == Ok(DefaultCache(now))
    ensures file.Present? ==> r == Ok(file.content)
    ensures r.Err? <==> file.Unreadable?
    ensures r.Err? ==> r.error == StoreUnreadable
  {
    match file
    case Missing => Ok(DefaultCache(now))
    case Unreadable => Err(StoreUnreadable)
    case Present(c) => Ok(c)
  }

  /** `InstalledServer::update_timestamp`: only the last-update instant moves. */
  function UpdateTimestamp(s: InstalledServer, now: Instant): (t: InstalledServer)
    ensures t.last_updated == now
    ensures t.(last_updated := s.last_updated) == s
  {
    s.(last_updated := now)
  }

  /** The first-run test of the entry point. */
  predicate NeedsSetup(c: Config) {
    !c.is_initialized
  }

  /** The registry `init` writes: both paths, no cache refresh yet, no servers. */
  function InitConfig(steamcmdPath: string, installPath: string): (c: Config)
    ensures c.steamcmd_path == steamcmdPath && c.install_path == installPath
    ensures c.last_cache_update.None? && c.installed_servers == []
    ensures !NeedsSetup(c)
  {
    Config(steamcmdPath, installPath, None, [], true)
  }

  /** `PathBuf::join` with a relative leaf on Unix: a separator is inserted
      only when the base is non-empty and does not already end in one. */
  function JoinPath(base: string, leaf: string): (r: string)
    ensures Text.IsPrefix(base, r)
    ensures '/' !in leaf ==> Text.LastSegment(r) == leaf
    ensures |base| == 0 ==> r == leaf
    ensures |base| > 0 ==> |r| == |base| + |leaf| + (if base[|base| - 1] == '/' then 0 else 1)
    ensures |base| > 0 && base[|base| - 1] != '/' ==> r[|base|] == '/'
    ensures |r| >= |leaf| && r[|r| - |leaf|..] == leaf
  {
    if |base| == 0 then leaf
    else if base[|base| - 1] == '/' then
      var r := base + leaf;
      assert |r| == |base| + |leaf|;
      assert r[|r| - |leaf|..] == leaf;
      assert '/' !in leaf ==> Text.LastSegment(r) == leaf by {
        if '/' !in leaf {
          assert r[|r| - |leaf|..] == leaf;
          Text.LastSegmentUnique(r, leaf);
        }
      }
      r
    else
      assert '/' !in leaf ==> Text.LastSegment(base + "/" + leaf) == leaf by {
        if '/' !in leaf {
          Text.LastSegmentOfJoin(base, leaf);
        }
      }
      var r := base + "/" + leaf;
      assert |r| == |base| + |leaf| + 1;
      assert r[|r| - |leaf|..] == leaf;
      r
  }

  /** `install_steamcmd`: asks where to put the tool and whether to fetch it;
      the download, extraction and first start are one outcome `bootstrapOk`.
      On success the tool is the `steamcmd.sh` script in that directory. */
  function InstallSteamCmd(script: seq<Answer>, bootstrapOk: bool): (r: Result<Asked<string>>)
    ensures r.Ok? ==> bootstrapOk && Text.LastSegment(r.value.value) == "steamcmd.sh"
    ensures r.Ok? ==> |script| >= 2 && script[0].Line? && Text.IsPrefix(script[0].text, r.value.value)
    ensures |script| >= 2 && script[0].Line? && script[1] == No ==> r == Err(SteamCmdDeclined)
    ensures |script| >= 2 && script[0].Line? && script[1] == Yes && !bootstrapOk ==> r == Err(BootstrapFailed)
    ensures |script| >= 2 && script[0].Line? && script[1] == Yes && bootstrapOk ==>
              r == Ok(Asked(JoinPath(script[0].text, "steamcmd.sh"), script[2..]))
    ensures r.Ok? <==> |script| >= 2 && script[0].Line? && script[1] == Yes && bootstrapOk
    ensures r.Err? && !(|script| >= 2 && script[0].Line? && (script[1] == Yes || script[1] == No)) ==>
              r.error == PromptFailed
  {
    var dir :- Ask(script);
    var confirm :- Confirm(dir.rest);
    if !confirm.value then Err(SteamCmdDeclined)
    else if !bootstrapOk then Err(BootstrapFailed)
    else
      assert '/' !in "steamcmd.sh";
      Ok(Asked(JoinPath(dir.value, "steamcmd.sh"), confirm.rest))
  }

  /** `Config::init`: the tool path is typed or comes from a fresh bootstrap,
      then the install root is typed; the result is the registry saved. */
  function Init(script: seq<Answer>, bootstrapOk: bool): (r: Result<Config>)
    ensures r.Ok? ==> !NeedsSetup(r.value) && r.value.installed_servers == []
    ensures r.Ok? ==> r.value.last_cache_update.None?
    ensures |script| >= 3 && script[0] == Yes && script[1].Line? && script[2].Line? ==>
              r == Ok(InitConfig(script[1].text, script[2].text))
    ensures r.Err? && |script| > 0 && script[0] == Yes ==> r.error == PromptFailed
    ensures |script| >= 4 && script[0] == No && script[1].Line? && script[2] == Yes && script[3].Line? && bootstrapOk ==>
              r == Ok(InitConfig(JoinPath(script[1].text, "steamcmd.sh"), script[3].text))
    ensures |script| >= 3 && script[0] == No && script[1].Line? && script[2] == Yes && !bootstrapOk ==>
              r == Err(BootstrapFailed)
    ensures r.Ok? ==> |script| > 0 && (script[0] == Yes || script[0] == No)
    ensures !(|script| > 0 && (script[0] == Yes || script[0] == No)) ==> r == Err(PromptFailed)
  {
    var have :- Confirm(script);
    var tool :- if have.value then Ask(have.rest) else InstallSteamCmd(have.rest, bootstrapOk);
    var root :- Ask(tool.rest);
    Ok(InitConfig(tool.value, root.value))
  }

  /** The first-run gate: a missing registry triggers setup, and once the
      registry written by setup is loaded again, setup is not run a second time. */
  lemma FirstRunGate(script: seq<Answer>, bootstrapOk: bool)
    ensures NeedsSetup(LoadConfig(Missing).value)
    ensures Init(script, bootstrapOk).Ok? ==>
              var c := Init(script, bootstrapOk).value;
              LoadConfig(SaveConfig(c)) == Ok(c) && !NeedsSetup(c)
  {
  }
}

=== FILE: steam_cmd.dfy ===
/** The install and update workflows of `src/core/steam.rs`: every prompt
    answer comes from a script, the external tool's exit is the input
    `exitOk`, the clock is the input `now`, and the registry written at the
    end is part of the result instead of a file. */
module SteamCmd {
  import opened Base
  import opened Text
  import opened Prompts
  import opened Registry

  const AnonymousUser: string := "anonymous"

  /** The choices offered when no username is given. */
  const LoginChoices: seq<string> := ["anonymous", "steam account"]

  /** The credentials pair handed to the external tool. */
  datatype Login = Login(user: string, password: string)

  const AnonymousLogin: Login := Login(AnonymousUser, "")

  /** The `SteamCMD` struct: what one install or update run asks for. */
  datatype InstallRequest = InstallRequest(login: Login, force_install_dir: string, app_update: U32)

  /** One run of the external tool at `program` with the argument vector
      `args` built from `request`. */
  datatype Invocation = Invocation(program: string, request: InstallRequest, args: seq<string>)

  datatype Status = Done | Failed(error: Error)

  /** What an operation did: the tool run it started, the registry it saved,
      and how it ended. */
  datatype Outcome = Outcome(invoked: Option<Invocation>, saved: Option<Config>, status: Status)

  /** An operation that stopped before running the tool. */
  function Abort(e: Error): (o: Outcome)
    ensures o.invoked.None? && o.saved.None? && o.status == Failed(e)
  {
    Outcome(None, None, Failed(e))
  }

  /** `iter().position`-style search: the first element satisfying `p`. */
  function FirstIndex<T>(xs: seq<T>, p: T -> bool): (r: Option<nat>)
    ensures r.Some? ==> r.value < |xs| && p(xs[r.value])
    ensures r.Some? ==> forall j :: 0 <= j < r.value ==> !p(xs[j])
    ensures r.None? ==> forall j :: 0 <= j < |xs| ==> !p(xs[j])
  {
    if |xs| == 0 then None
    else if p(xs[0]) then Some(0)
    else match FirstIndex(xs[1..], p)
      case None => None
      case Some(i) => Some(i + 1)
  }

  // ---------------------------------------------------------------------
  // Install directory

  /** `format!("{}/{}", install_path, name)`. */
  function InstallDir(root: string, name: string): string {
    root + "/" + name
  }

  /** `get_force_install_dir`. With a name hint the hint is confirmed; if the
      user declines, a new name is asked for and then dropped, so the hint is
      used either way. Without a hint the typed name is used. */
  function GetForceInstallDir(config: Config, nameHint: Option<string>, script: seq<Answer>): (r: Result<Asked<string>>)
    ensures r.Err? ==> r.error == PromptFailed
    ensures nameHint.Some? ==>
              (r.Ok? <==> |script| > 0 && (script[0] == Yes || (script[0] == No && |script| > 1 && script[1].Line?)))
    ensures nameHint.Some? && r.Ok? ==> r.value.value == InstallDir(config.install_path, nameHint.value)
    ensures nameHint.None? ==> (r.Ok? <==> |script| > 0 && script[0].Line?)
    ensures nameHint.None? && r.Ok? ==>
              r.value == Asked(InstallDir(config.install_path, script[0].text), script[1..])
  {
    match nameHint
    case Some(name) =>
      var confirm :- Confirm(script);
      if confirm.value then Ok(Asked(InstallDir(config.install_path, name), confirm.rest))
      else
        var retyped :- Ask(confirm.rest);
        Ok(Asked(InstallDir(config.install_path, name), retyped.rest))
    case None =>
      var typed :- Ask(script);
      Ok(Asked(InstallDir(config.install_path, typed.value), typed.rest))
  }

  /** A declined name hint still names the directory: whatever is typed
      instead is consumed and ignored. */
  lemma RejectedNameIsDiscarded(config: Config, name: string, typed1: string, typed2: string, rest: seq<Answer>)
    ensures GetForceInstallDir(config, Some(name), [No, Line(typed1)] + rest)
         == GetForceInstallDir(config, Some(name), [No, Line(typed2)] + rest)
         == Ok(Asked(InstallDir(config.install_path, name), rest))
  {
    assert ([No, Line(typed1)] + rest)[2..] == rest;
    assert ([No, Line(typed2)] + rest)[2..] == rest;
  }

  /** Without a hint, the server name recovered from the directory is the
      typed name, provided the name holds no `/`. */
  lemma TypedNameIsRecovered(config: Config, typed: string, rest: seq<Answer>)
    requires '/' !in typed
    ensures GetForceInstallDir(config, None, [Line(typed)] + rest).Ok?
    ensures LastSegment(GetForceInstallDir(config, None, [Line(typed)] + rest).value.value) == typed
  {
    LastSegmentOfJoin(config.install_path, typed);
  }

  // ---------------------------------------------------------------------
  // Credentials

  /** `get_login`. The username `anonymous` needs no password; any other
      username is asked for its password; without a username the kind of
      login is selected first. */
  function GetLogin(userHint: Option<string>, script: seq<Answer>): (r: Result<Asked<Login>>)
    ensures r.Err? ==> r.error == PromptFailed
    ensures userHint == Some(AnonymousUser) ==> r == Ok(Asked(AnonymousLogin, script))
    ensures userHint.Some? && userHint.value != AnonymousUser ==>
              (r.Ok? <==> |script| > 0 && script[0].Line?)
    ensures userHint.Some? && userHint.value != AnonymousUser && r.Ok? ==>
              r.value == Asked(Login(userHint.value, script[0].text), script[1..])
    ensures userHint.None? && |script| > 0 && script[0] == Pick(0) ==>
              r == Ok(Asked(AnonymousLogin, script[1..]))
    ensures userHint.None? && |script| > 2 && script[0] == Pick(1) && script[1].Line? && script[2].Line? ==>
              r == Ok(Asked(Login(script[1].text, script[2].text), script[3..]))
    ensures userHint.None? ==>
              (r.Ok? <==> |script| > 0 && (script[0] == Pick(0)
                                           || (script[0] == Pick(1) && |script| > 2 && script[1].Line? && script[2].Line?)))
  {
    match userHint
    case Some(user) =>
      if user == AnonymousUser then Ok(Asked(AnonymousLogin, script))
      else
        var password :- Ask(script);
        Ok(Asked(Login(user, password.value), password.rest))
    case None =>
      var choice :- Select(LoginChoices, script);
      if choice.value == "anonymous" then Ok(Asked(AnonymousLogin, choice.rest))
      else if choice.value == "steam account" then
        var user :- Ask(choice.rest);
        var password :- Ask(user.rest);
        Ok(Asked(Login(user.value, password.value), password.rest))
      else Err(Panic(LoginChoiceUnknown))
  }

  /** How a login is recorded for later updates. */
  function LoginTypeOf(login: Login): (t: LoginType)
    ensures t == Anonymous <==> login.user == AnonymousUser
  {
    if login.user == AnonymousUser then Anonymous else SteamAccount
  }

  /** The credentials an update uses: none to ask for an anonymous server,
      username and password asked again every time otherwise. */
  function StoredLogin(t: LoginType, script: seq<Answer>): (r: Result<Asked<Login>>)
    ensures r.Err? ==> r.error == PromptFailed
    ensures t == Anonymous ==> r == Ok(Asked(AnonymousLogin, script))
    ensures t == SteamAccount ==> (r.Ok? <==> |script| > 1 && script[0].Line? && script[1].Line?)
    ensures t == SteamAccount && r.Ok? ==>
              r.value == Asked(Login(script[0].text, script[1].text), script[2..])
  {
    match t
    case Anonymous => Ok(Asked(AnonymousLogin, script))
    case SteamAccount =>
      var user :- Ask(script);
      var password :- Ask(user.rest);
      Ok(Asked(Login(user.value, password.value), password.rest))
  }

  // ---------------------------------------------------------------------
  // App id

  predicate InCatalog(servers: seq<ServerInfo>, id: U32) {
    exists i :: 0 <= i < |servers| && servers[i].app_id == id
  }

  /** `check_app_id`: the name of the first catalog entry with this id. */
  function CheckAppId(cacheFile: Stored<ServerCache>, now: Instant, id: U32): (r: Result<string>)
    ensures cacheFile.Unreadable? ==> r == Err(StoreUnreadable)
    ensures !cacheFile.Unreadable? ==>
              var servers := LoadCache(cacheFile, now).value.servers;
              (r.Ok? <==> InCatalog(servers, id)) && (r.Err? ==> r.error == AppNotInCatalog)
    ensures r.Ok? ==>
              var servers := LoadCache(cacheFile, now).value.servers;
              exists i :: 0 <= i < |servers| && servers[i].app_id == id && r.value == servers[i].name
                          && forall j :: 0 <= j < i ==> servers[j].app_id != id
  {
    var cache :- LoadCache(cacheFile, now);
    match FirstIndex(cache.servers, (s: ServerInfo) => s.app_id == id)
    case None => Err(AppNotInCatalog)
    case Some(i) =>
      assert cache.servers[i].app_id == id;
      Ok(cache.servers[i].name)
  }

  /** `app_id.parse::<u32>()?`: a parse failure is an error of the operation. */
  function ParseAppId(text: string): (r: Result<U32>)
    ensures r.Ok? <==> ParseU32(text).Some?
    ensures r.Ok? ==> r.value == ParseU32(text).value
    ensures r.Err? ==> r.error == AppIdNotNumeric
  {
    match ParseU32(text)
    case None => Err(AppIdNotNumeric)
    case Some(id) => Ok(id)
  }

  /** `get_app_update`. A hinted id is looked up in the catalog and
      confirmed; if declined, a new id is typed, which is neither checked
      against the catalog nor allowed to be malformed (the `unwrap` panics).
      Without a hint the typed id is parsed, looked up and confirmed; if
      declined, the id typed next is only parsed. */
  function GetAppUpdate(appHint: Option<U32>, cacheFile: Stored<ServerCache>, now: Instant, script: seq<Answer>): (r: Result<Asked<U32>>)
    ensures r.Err? && r.error.Panic? ==> appHint.Some? && r.error.site == AppIdNotParsed
    ensures appHint.Some? && !cacheFile.Unreadable? && !InCatalog(LoadCache(cacheFile, now).value.servers, appHint.value) ==>
              r == Err(AppNotInCatalog)
    ensures appHint.Some? && r.Ok? ==> CheckAppId(cacheFile, now, appHint.value).Ok?
    ensures appHint.Some? && CheckAppId(cacheFile, now, appHint.value).Ok? && |script| > 0 && script[0] == Yes ==>
              r == Ok(Asked(appHint.value, script[1..]))
    ensures appHint.None? && r.Ok? ==>
              |script| > 0 && script[0].Line? && ParseU32(script[0].text).Some?
              && CheckAppId(cacheFile, now, ParseU32(script[0].text).value).Ok?
    ensures appHint.None? && |script| > 0 && script[0].Line? && ParseU32(script[0].text).None? ==>
              r == Err(AppIdNotNumeric)
    ensures appHint.None? && |script| > 1 && script[0].Line? && ParseU32(script[0].text).Some?
            && CheckAppId(cacheFile, now, ParseU32(script[0].text).value).Ok? && script[1] == Yes ==>
              r == Ok(Asked(ParseU32(script[0].text).value, script[2..]))
    ensures appHint.None? && |script| > 2 && script[0].Line? && ParseU32(script[0].text).Some?
            && CheckAppId(cacheFile, now, ParseU32(script[0].text).value).Ok? && script[1] == No
            && script[2].Line? ==>
              r == (if ParseU32(script[2].text).Some? then Ok(Asked(ParseU32(script[2].text).value, script[3..]))
                    else Err(AppIdNotNumeric))
    ensures appHint.Some? && CheckAppId(cacheFile, now, appHint.value).Ok? ==>
              (r.Ok? <==> |script| > 0 && (script[0] == Yes
                                           || (script[0] == No && |script| > 1 && script[1].Line?
                                               && ParseU32(script[1].text).Some?)))
    ensures appHint.None? ==>
              (r.Ok? <==> |script| > 1 && script[0].Line? && ParseU32(script[0].text).Some?
                          && CheckAppId(cacheFile, now, ParseU32(script[0].text).value).Ok?
                          && (script[1] == Yes
                              || (script[1] == No && |script| > 2 && script[2].Line?
                                  && ParseU32(script[2].text).Some?)))
  {
    match appHint
    case Some(id) =>
      var name :- CheckAppId(cacheFile, now, id);
      var confirm :- Confirm(script);
      if confirm.value then Ok(Asked(id, confirm.rest))
      else
        var typed :- Ask(confirm.rest);
        (match ParseU32(typed.value)
         case Some(other) => Ok(Asked(other, typed.rest))
         case None => Err(Panic(AppIdNotParsed)))
    case None =>
      var typed :- Ask(script);
      var id :- ParseAppId(typed.value);
      var name :- CheckAppId(cacheFile, now, id);
      var confirm :- Confirm(typed.rest);
      if confirm.value then Ok(Asked(id, confirm.rest))
      else
        var retyped :- Ask(confirm.rest);
        var other :- ParseAppId(retyped.value);
        Ok(Asked(other, retyped.rest))
  }

  /** After a declined hint, the id typed instead is used as long as it
      parses, whether or not the catalog knows it. */
  lemma ReenteredIdIsNotChecked(cacheFile: Stored<ServerCache>, now: Instant, id: U32, typed: string, rest: seq<Answer>)
    requires CheckAppId(cacheFile, now, id).Ok?
    requires ParseU32(typed).Some?
    ensures GetAppUpdate(Some(id), cacheFile, now, [No, Line(typed)] + rest) == Ok(Asked(ParseU32(typed).value, rest))
  {
    assert ([No, Line(typed)] + rest)[1..] == [Line(typed)] + rest;
    assert ([Line(typed)] + rest)[1..] == rest;
  }

  /** After a declined hint, an id typed instead that does not parse aborts
      the process. */
  lemma UnparsableReentryPanics(cacheFile: Stored<ServerCache>, now: Instant, id: U32, typed: string, rest: seq<Answer>)
    requires CheckAppId(cacheFile, now, id).Ok?
    requires ParseU32(typed).None?
    ensures GetAppUpdate(Some(id), cacheFile, now, [No, Line(typed)] + rest) == Err(Panic(AppIdNotParsed))
  {
    assert ([No, Line(typed)] + rest)[1..] == [Line(typed)] + rest;
  }

  // ---------------------------------------------------------------------
  // The external tool's argument vector

  const ForceInstallDirFlag: string := "+force_install_dir "
  const LoginFlag: string := "+login "
  const AppUpdateFlag: string := "+app_update "
  const ValidateSuffix: string := " validate"
  const QuitFlag: string := "+quit"

  /** The arguments of `execute_install_command`, in order. */
  function InstallArgs(req: InstallRequest): (args: seq<string>)
    ensures |args| == 4 && args[3] == QuitFlag
    ensures IsPrefix(ForceInstallDirFlag, args[0]) && IsPrefix(LoginFlag, args[1]) && IsPrefix(AppUpdateFlag, args[2])
  {
    [ ForceInstallDirFlag + req.force_install_dir,
      LoginFlag + req.login.user + " " + req.login.password,
      AppUpdateFlag + Decimal(req.app_update) + ValidateSuffix,
      QuitFlag ]
  }

  /** An independent reader of those four arguments: a directory, a
      username up to the first space with the password after it, and a
      decimal app id followed by `validate`. */
  function ReadInstallArgs(args: seq<string>): Option<InstallRequest> {
    if |args| != 4 || args[3] != QuitFlag then None
    else if !IsPrefix(ForceInstallDirFlag, args[0]) || !IsPrefix(LoginFlag, args[1]) then None
    else if |args[2]| < |AppUpdateFlag| + |ValidateSuffix| then None
    else if args[2][..|AppUpdateFlag|] != AppUpdateFlag then None
    else if args[2][|args[2]| - |ValidateSuffix|..] != ValidateSuffix then None
    else
      var dir := args[0][|ForceInstallDirFlag|..];
      var idText := args[2][|AppUpdateFlag|..|args[2]| - |ValidateSuffix|];
      match (SplitAtSpace(args[1][|LoginFlag|..]), ParseU32(idText))
      case (Some((user, password)), Some(id)) => Some(InstallRequest(Login(user, password), dir, id))
      case _ => None
  }

  /** The argument vector carries the whole request: reading it back gives
      the directory, the credentials and the app id, as long as the username
      holds no space. */
  lemma InstallArgsRoundTrip(req: InstallRequest)
    requires ' ' !in req.login.user
    ensures ReadInstallArgs(InstallArgs(req)) == Some(req)
  {
    var args := InstallArgs(req);
    assert args[0][|ForceInstallDirFlag|..] == req.force_install_dir;
    assert args[1][|LoginFlag|..] == req.login.user + " " + req.login.password;
    SplitAtSpaceJoin(req.login.user, req.login.password);
    var digits := Decimal(req.app_update);
    assert args[2] == AppUpdateFlag + digits + ValidateSuffix;
    assert args[2][..|AppUpdateFlag|] == AppUpdateFlag;
    assert args[2][|args[2]| - |ValidateSuffix|..] == ValidateSuffix;
    assert args[2][|AppUpdateFlag|..|args[2]| - |ValidateSuffix|] == digits;
    ParseDecimal(req.app_update);
  }

  /** `execute_install_command`: the tool at `program` is run with the
      request's four arguments; an exit without success is an error. */
  function ExecuteInstallCommand(program: string, req: InstallRequest, exitOk: bool): (r: (Invocation, Status))
    ensures r.0.program == program && r.0.request == req
    ensures r.0.args == InstallArgs(req)
    ensures ' ' !in req.login.user ==> ReadInstallArgs(r.0.args) == Some(req)
    ensures r.1.Done? <==> exitOk
    ensures r.1.Failed? ==> r.1.error == CommandFailed
  {
    assert ' ' !in req.login.user ==> ReadInstallArgs(InstallArgs(req)) == Some(req) by {
      if ' ' !in req.login.user {
        InstallArgsRoundTrip(req);
      }
    }
    (Invocation(program, req, InstallArgs(req)), if exitOk then Done else Failed(CommandFailed))
  }

  // ---------------------------------------------------------------------
  // Install

  /** The registry entry of a freshly installed server. */
  function NewServer(req: InstallRequest, autoUpdate: bool, now: Instant): (s: InstalledServer)
    ensures s.app_id == req.app_update && s.install_path == req.force_install_dir
    ensures s.name == LastSegment(req.force_install_dir)
    ensures s.install_date == now && s.last_updated == now
    ensures s.auto_update == autoUpdate && s.port.None?
    ensures s.login_type == Anonymous <==> req.login.user == AnonymousUser
  {
    InstalledServer(req.app_update, LastSegment(req.force_install_dir), req.force_install_dir,
                    now, now, autoUpdate, None, LoginTypeOf(req.login))
  }

  /** The prompts of `install` up to the tool run: directory, credentials, app id. */
  function PlanInstall(config: Config, cacheFile: Stored<ServerCache>, appHint: Option<U32>,
                       nameHint: Option<string>, userHint: Option<string>, script: seq<Answer>, now: Instant)
    : (r: Result<Asked<InstallRequest>>)
    ensures r.Ok? && nameHint.Some? ==> r.value.value.force_install_dir == InstallDir(config.install_path, nameHint.value)
    ensures r.Ok? && userHint == Some(AnonymousUser) ==> r.value.value.login == AnonymousLogin
    ensures r.Ok? && userHint.Some? ==> r.value.value.login.user == userHint.value
    ensures r.Ok? && appHint.Some? ==> CheckAppId(cacheFile, now, appHint.value).Ok?
    ensures r.Err? && r.error.Panic? ==> appHint.Some? && r.error.site == AppIdNotParsed
    ensures r.Ok? ==>
              var d := GetForceInstallDir(config, nameHint, script);
              && d.Ok? && r.value.value.force_install_dir == d.value.value
              && var l := GetLogin(userHint, d.value.rest);
                 && l.Ok? && r.value.value.login == l.value.value
                 && GetAppUpdate(appHint, cacheFile, now, l.value.rest) == Ok(Asked(r.value.value.app_update, r.value.rest))
    ensures var d := GetForceInstallDir(config, nameHint, script);
            (d.Ok? && GetLogin(userHint, d.value.rest).Ok?
             && GetAppUpdate(appHint, cacheFile, now, GetLogin(userHint, d.value.rest).value.rest).Ok?) ==> r.Ok?
  {
    var dir :- GetForceInstallDir(config, nameHint, script);
    var login :- GetLogin(userHint, dir.rest);
    var app :- GetAppUpdate(appHint, cacheFile, now, login.rest);
    Ok(Asked(InstallRequest(login.value, dir.value, app.value), app.rest))
  }

  /** `SteamCMD::install`: the registry gains exactly one entry, at the end,
      and only after the tool has succeeded; everything else in the registry
      stays as loaded. */
  function Install(configFile: Stored<Config>, cacheFile: Stored<ServerCache>, appHint: Option<U32>,
                   nameHint: Option<string>, userHint: Option<string>, script: seq<Answer>,
                   exitOk: bool, now: Instant): (o: Outcome)
    ensures o.status.Done? <==> o.saved.Some?
    ensures o.saved.Some? ==> exitOk && o.invoked.Some?
    ensures !exitOk ==> o.saved.None?
    ensures o.invoked.Some? && !exitOk ==> o.status == Failed(CommandFailed)
    ensures o.status == Failed(Panic(AppIdNotParsed)) ==> appHint.Some? && o.invoked.None?
    ensures o.invoked.Some? ==>
              LoadConfig(configFile).Ok? && o.invoked.value.program == LoadConfig(configFile).value.steamcmd_path
    ensures o.invoked.Some? ==> o.invoked.value.args == InstallArgs(o.invoked.value.request)
    ensures o.invoked.Some? && nameHint.Some? ==>
              o.invoked.value.request.force_install_dir == InstallDir(LoadConfig(configFile).value.install_path, nameHint.value)
    ensures o.invoked.Some? && userHint == Some(AnonymousUser) ==> o.invoked.value.request.login == AnonymousLogin
    ensures o.invoked.Some? && appHint.Some? ==> CheckAppId(cacheFile, now, appHint.value).Ok?
    ensures o.saved.Some? ==>
              var before := LoadConfig(configFile).value;
              var after := o.saved.value;
              var n := |before.installed_servers|;
              var req := o.invoked.value.request;
              && after.(installed_servers := before.installed_servers) == before
              && |after.installed_servers| == n + 1
              && after.installed_servers[..n] == before.installed_servers
              && after.installed_servers[n].app_id == req.app_update
              && after.installed_servers[n].install_path == req.force_install_dir
              && after.installed_servers[n].name == LastSegment(req.force_install_dir)
              && after.installed_servers[n].port.None?
              && after.installed_servers[n].install_date == now
              && after.installed_servers[n].last_updated == now
              && (after.installed_servers[n].login_type == Anonymous <==> req.login.user == AnonymousUser)
              && after == before.(installed_servers := before.installed_servers
                                    + [NewServer(req, after.installed_servers[n].auto_update, now)])
    ensures o.invoked.Some? ==>
              var plan := PlanInstall(LoadConfig(configFile).value, cacheFile, appHint, nameHint, userHint, script, now);
              plan.Ok? && o.invoked.value.request == plan.value.value
    ensures LoadConfig(configFile).Ok? ==>
              var plan := PlanInstall(LoadConfig(configFile).value, cacheFile, appHint, nameHint, userHint, script, now);
              plan.Err? ==> o == Abort(plan.error)
    ensures LoadConfig(configFile).Ok? && exitOk ==>
              var plan := PlanInstall(LoadConfig(configFile).value, cacheFile, appHint, nameHint, userHint, script, now);
              plan.Ok? && |plan.value.rest| > 0 && (plan.value.rest[0] == Yes || plan.value.rest[0] == No) ==>
                && o.saved.Some?
                && var n := |LoadConfig(configFile).value.installed_servers|;
                   o.saved.value.installed_servers[n].auto_update == (plan.value.rest[0] == Yes)
    ensures o.saved.Some? ==>
              var plan := PlanInstall(LoadConfig(configFile).value, cacheFile, appHint, nameHint, userHint, script, now);
              plan.Ok? && |plan.value.rest| > 0 && (plan.value.rest[0] == Yes || plan.value.rest[0] == No)
    ensures LoadConfig(configFile).Ok? ==>
              var plan := PlanInstall(LoadConfig(configFile).value, cacheFile, appHint, nameHint, userHint, script, now);
              plan.Ok? ==> o.invoked == Some(Invocation(LoadConfig(configFile).value.steamcmd_path, plan.value.value,
                                                     InstallArgs(plan.value.value)))
  {
    match LoadConfig(configFile)
    case Err(e) => Abort(e)
    case Ok(config) =>
      match PlanInstall(config, cacheFile, appHint, nameHint, userHint, script, now)
      case Err(e) => Abort(e)
      case Ok(plan) =>
        var (run, status) := ExecuteInstallCommand(config.steamcmd_path, plan.value, exitOk);
        if status.Failed? then Outcome(Some(run), None, status)
        else match Confirm(plan.rest)
          case Err(e) => Outcome(Some(run), None, Failed(e))
          case Ok(autoUpdate) =>
            var server := NewServer(plan.value, autoUpdate.value, now);
            var after := config.(installed_servers := config.installed_servers + [server]);
            assert after.installed_servers[..|config.installed_servers|] == config.installed_servers;
            Outcome(Some(run), Some(after), Done)
  }

  // ---------------------------------------------------------------------
  // Update

  function Names(servers: seq<InstalledServer>): (names: seq<string>)
    ensures |names| == |servers|
    ensures forall i :: 0 <= i < |servers| ==> names[i] == servers[i].name
  {
    seq(|servers|, i requires 0 <= i < |servers| => servers[i].name)
  }

  predicate Registered(servers: seq<InstalledServer>, name: string) {
    exists i :: 0 <= i < |servers| && servers[i].name == name
  }

  /** The name `update` works on: a registered hint as is, an unregistered
      hint replaced by a typed name (not checked), no hint a selection from
      the registered names. */
  function ChooseTarget(servers: seq<InstalledServer>, nameHint: Option<string>, script: seq<Answer>): (r: Result<Asked<string>>)
    ensures r.Err? ==> r.error == PromptFailed
    ensures nameHint.Some? && Registered(servers, nameHint.value) ==> r == Ok(Asked(nameHint.value, script))
    ensures nameHint.Some? && !Registered(servers, nameHint.value) ==> r == Ask(script)
    ensures nameHint.None? && r.Ok? ==> Registered(servers, r.value.value)
    ensures nameHint.None? ==> r == Select(Names(servers), script)
  {
    var names := Names(servers);
    match nameHint
    case Some(name) => if name in names then Ok(Asked(name, script)) else Ask(script)
    case None => Select(names, script)
  }

  /** `servers.iter().find(|s| s.name == name)` as an index. */
  function FindServer(servers: seq<InstalledServer>, name: string): (r: Option<nat>)
    ensures r.Some? ==> r.value < |servers| && servers[r.value].name == name
    ensures r.Some? ==> forall j :: 0 <= j < r.value ==> servers[j].name != name
    ensures r.None? <==> !Registered(servers, name)
  {
    FirstIndex(servers, (s: InstalledServer) => s.name == name)
  }

  /** The credentials an update of `target` uses: those of the first entry
      with that name, asked for from the rest of the script; an unregistered
      name is the `unwrap` panic of the lookup. */
  function TargetLogin(servers: seq<InstalledServer>, target: Asked<string>): (r: Result<Asked<Login>>)
    ensures r.Err? && r.error == Panic(ServerNotRegistered) <==> !Registered(servers, target.value)
    ensures Registered(servers, target.value) ==>
              r == StoredLogin(servers[FindServer(servers, target.value).value].login_type, target.rest)
  {
    match FindServer(servers, target.value)
    case None => Err(Panic(ServerNotRegistered))
    case Some(i) => StoredLogin(servers[i].login_type, target.rest)
  }

  /** The run an update makes for entry `i`: its directory, its app id, and
      anonymous credentials when it was installed anonymously; `i` is the
      first entry carrying its name. */
  predicate Serves(servers: seq<InstalledServer>, i: int, req: InstallRequest) {
    && 0 <= i < |servers|
    && req.force_install_dir == servers[i].install_path
    && req.app_update == servers[i].app_id
    && (servers[i].login_type == Anonymous ==> req.login == AnonymousLogin)
    && forall j :: 0 <= j < i ==> servers[j].name != servers[i].name
  }

  /** `SteamCMD::update`: the tool is run with the stored directory and app
      id; after it succeeds, the matching entry's last-update instant is set
      and nothing else in the registry changes. */
  function Update(configFile: Stored<Config>, nameHint: Option<string>, script: seq<Answer>,
                  exitOk: bool, now: Instant): (o: Outcome)
    ensures o.status.Done? <==> o.saved.Some?
    ensures o.saved.Some? ==> exitOk && o.invoked.Some?
    ensures !exitOk ==> o.saved.None?
    ensures o.invoked.Some? && !exitOk ==> o.status == Failed(CommandFailed)
    ensures o.status == Failed(Panic(ServerNotRegistered)) ==>
              o.invoked.None? && nameHint.Some? && LoadConfig(configFile).Ok?
              && !Registered(LoadConfig(configFile).value.installed_servers, nameHint.value)
    ensures o.invoked.Some? ==>
              LoadConfig(configFile).Ok? && o.invoked.value.program == LoadConfig(configFile).value.steamcmd_path
    ensures o.invoked.Some? ==> o.invoked.value.args == InstallArgs(o.invoked.value.request)
    ensures o.invoked.Some? ==>
              var before := LoadConfig(configFile).value;
              exists i :: Serves(before.installed_servers, i, o.invoked.value.request)
                && (o.saved.Some? ==>
                      o.saved.value == before.(installed_servers :=
                        before.installed_servers[i := UpdateTimestamp(before.installed_servers[i], now)]))
    ensures o.invoked.Some? ==>
              var servers := LoadConfig(configFile).value.installed_servers;
              var target := ChooseTarget(servers, nameHint, script);
              && target.Ok?
              && FindServer(servers, target.value.value).Some?
              && var i := FindServer(servers, target.value.value).value;
                 && Serves(servers, i, o.invoked.value.request)
                 && (o.saved.Some? ==>
                       o.saved.value.installed_servers == servers[i := UpdateTimestamp(servers[i], now)])
    ensures o.invoked.Some? ==>
              var servers := LoadConfig(configFile).value.installed_servers;
              var target := ChooseTarget(servers, nameHint, script);
              && target.Ok?
              && TargetLogin(servers, target.value).Ok?
              && o.invoked.value.request.login == TargetLogin(servers, target.value).value.value
    ensures LoadConfig(configFile).Ok? && exitOk ==>
              var servers := LoadConfig(configFile).value.installed_servers;
              var target := ChooseTarget(servers, nameHint, script);
              target.Ok? && TargetLogin(servers, target.value).Ok? ==> o.saved.Some?
    ensures LoadConfig(configFile).Ok? ==>
              var servers := LoadConfig(configFile).value.installed_servers;
              var target := ChooseTarget(servers, nameHint, script);
              target.Ok? && TargetLogin(servers, target.value).Ok? ==> o.invoked.Some?
    ensures LoadConfig(configFile).Ok? && nameHint.Some? && exitOk ==>
              var servers := LoadConfig(configFile).value.installed_servers;
              Registered(servers, nameHint.value) && TargetLogin(servers, Asked(nameHint.value, script)).Ok? ==>
                o.saved.Some?
  {
    match LoadConfig(configFile)
    case Err(e) => Abort(e)
    case Ok(config) =>
      var servers := config.installed_servers;
      match ChooseTarget(servers, nameHint, script)
      case Err(e) => Abort(e)
      case Ok(target) =>
        match FindServer(servers, target.value)
        case None => Abort(Panic(ServerNotRegistered))
        case Some(i) =>
          match StoredLogin(servers[i].login_type, target.rest)
          case Err(e) => Abort(e)
          case Ok(login) =>
            assert Serves(servers, i, InstallRequest(login.value, servers[i].install_path, servers[i].app_id));
            RunUpdate(config, i, login.value, exitOk, now)
  }

  /** The tool run for entry `i` with `login`, and the stamp after it. The
      source looks the name up again in the same, unchanged list, so the
      entry it stamps is entry `i`. */
  function RunUpdate(config: Config, i: nat, login: Login, exitOk: bool, now: Instant): (o: Outcome)
    requires i < |config.installed_servers|
    ensures var req := InstallRequest(login, config.installed_servers[i].install_path, config.installed_servers[i].app_id);
            o.invoked == Some(Invocation(config.steamcmd_path, req, InstallArgs(req)))
    ensures o.status.Done? <==> exitOk
    ensures !exitOk ==> o.saved.None? && o.status == Failed(CommandFailed)
    ensures exitOk ==> o.saved == Some(config.(installed_servers :=
              config.installed_servers[i := UpdateTimestamp(config.installed_servers[i], now)]))
  {
    var servers := config.installed_servers;
    var req := InstallRequest(login, servers[i].install_path, servers[i].app_id);
    var (run, status) := ExecuteInstallCommand(config.steamcmd_path, req, exitOk);
    if status.Failed? then Outcome(Some(run), None, status)
    else Outcome(Some(run), Some(config.(installed_servers := servers[i := UpdateTimestamp(servers[i], now)])), Done)
  }

  /** A hand-typed update target that is not registered aborts the process
      before the tool runs. */
  lemma UnregisteredTargetPanics(c: Config, hint: string, typed: string, rest: seq<Answer>, exitOk: bool, now: Instant)
    requires !Registered(c.installed_servers, hint) && !Registered(c.installed_servers, typed)
    ensures Update(Present(c), Some(hint), [Line(typed)] + rest, exitOk, now) == Abort(Panic(ServerNotRegistered))
  {
  }

  /** A name no earlier entry carries is found at the entry appended with it. */
  lemma FindAppended(servers: seq<InstalledServer>, s: InstalledServer)
    requires forall j :: 0 <= j < |servers| ==> servers[j].name != s.name
    ensures FindServer(servers + [s], s.name) == Some(|servers|)
  {
    var all := servers + [s];
    assert all[|servers|].name == s.name;
    assert forall j :: 0 <= j < |servers| ==> all[j].name != s.name;
  }

  /** Appending an entry does not move the first match of a name that is
      already registered. */
  lemma FindBeforeAppended(servers: seq<InstalledServer>, s: InstalledServer, name: string)
    requires Registered(servers, name)
    ensures FindServer(servers + [s], name) == FindServer(servers, name)
  {
    var all := servers + [s];
    var i := FindServer(servers, name).value;
    assert all[i].name == name;
    assert forall j :: 0 <= j < i ==> all[j].name != name;
  }

  /** An update of a registered name runs the tool exactly when the stored
      login's prompts succeed, with that login and the entry's directory and
      app id. */
  lemma UpdateRegistered(c: Config, name: string, script: seq<Answer>, exitOk: bool, now: Instant)
    requires Registered(c.installed_servers, name)
    ensures var i := FindServer(c.installed_servers, name).value;
            var login := StoredLogin(c.installed_servers[i].login_type, script);
            var u := Update(Present(c), Some(name), script, exitOk, now);
            && (u.invoked.Some? <==> login.Ok?)
            && (login.Ok? ==>
                  u.invoked.value.request
                  == InstallRequest(login.value.value, c.installed_servers[i].install_path, c.installed_servers[i].app_id))
  {
    assert ChooseTarget(c.installed_servers, Some(name), script) == Ok(Asked(name, script));
  }

  // ---------------------------------------------------------------------
  // Install followed by update

  /** Updating the server an install just registered reruns the tool on the
      same directory and app id, anonymously without asking anything if the
      install was anonymous, and asking for username and password otherwise.
      `before` and the appended entry are the registry `Install` saves. */
  lemma {:induction false} UpdateAfterInstall(before: Config, req: InstallRequest, autoUpdate: bool, now: Instant,
                                              updateScript: seq<Answer>, exitOk: bool, later: Instant)
    requires forall j :: 0 <= j < |before.installed_servers| ==>
               before.installed_servers[j].name != LastSegment(req.force_install_dir)
    ensures var after := before.(installed_servers := before.installed_servers + [NewServer(req, autoUpdate, now)]);
            var u := Update(Present(after), Some(LastSegment(req.force_install_dir)), updateScript, exitOk, later);
            && (req.login.user == AnonymousUser ==> u.invoked.Some? && u.invoked.value.request.login == AnonymousLogin)
            && (req.login.user != AnonymousUser ==>
                  (u.invoked.Some? <==> |updateScript| > 1 && updateScript[0].Line? && updateScript[1].Line?))
            && (u.invoked.Some? ==>
                  && u.invoked.value.request.force_install_dir == req.force_install_dir
                  && u.invoked.value.request.app_update == req.app_update)
  {
    var after := before.(installed_servers := before.installed_servers + [NewServer(req, autoUpdate, now)]);
    var all := after.installed_servers;
    var last := |all| - 1;
    var name := LastSegment(req.force_install_dir);
    assert all[last] == NewServer(req, autoUpdate, now);
    assert Registered(all, name);
    FindAppended(before.installed_servers, NewServer(req, autoUpdate, now));
    UpdateRegistered(after, name, updateScript, exitOk, later);
    var u := Update(Present(after), Some(name), updateScript, exitOk, later);
    var login := StoredLogin(all[last].login_type, updateScript);
    assert u.invoked.Some? <==> login.Ok?;
    assert login.Ok? ==> u.invoked.value.request == InstallRequest(login.value.value, req.force_install_dir, req.app_update);
  }

  /** Replacing an element before an appended one commutes with the append. */
  lemma UpdateBeforeAppend<T>(xs: seq<T>, i: nat, v: T, y: T)
    requires i < |xs|
    ensures (xs + [y])[i := v] == xs[i := v] + [y]
  {
    var l := (xs + [y])[i := v];
    var r := xs[i := v] + [y];
    assert |l| == |r|;
    assert forall k :: 0 <= k < |l| ==> l[k] == r[k];
  }

  /** Nothing stops an install from registering a name that an earlier entry
      already carries. An update by that name then works on the earlier
      entry: its directory, its app id and its login kind, and on success it
      stamps the earlier entry and leaves the new one as installed. */
  lemma {:induction false} UpdateAfterDuplicateInstall(before: Config, req: InstallRequest, autoUpdate: bool, now: Instant,
                                                      updateScript: seq<Answer>, exitOk: bool, later: Instant)
    requires Registered(before.installed_servers, LastSegment(req.force_install_dir))
    ensures var name := LastSegment(req.force_install_dir);
            var earlier := before.installed_servers;
            var i := FindServer(earlier, name).value;
            var after := before.(installed_servers := earlier + [NewServer(req, autoUpdate, now)]);
            var u := Update(Present(after), Some(name), updateScript, exitOk, later);
            && (u.invoked.Some? <==> StoredLogin(earlier[i].login_type, updateScript).Ok?)
            && (u.invoked.Some? ==>
                  && u.invoked.value.request.force_install_dir == earlier[i].install_path
                  && u.invoked.value.request.app_update == earlier[i].app_id)
            && (u.saved.Some? ==>
                  u.saved.value.installed_servers
                  == earlier[i := UpdateTimestamp(earlier[i], later)] + [NewServer(req, autoUpdate, now)])
  {
    var name := LastSegment(req.force_install_dir);
    var earlier := before.installed_servers;
    var server := NewServer(req, autoUpdate, now);
    var all := earlier + [server];
    var after := before.(installed_servers := all);
    var found := FindServer(earlier, name);
    assert found.Some?;
    var i := found.value;
    assert all[i] == earlier[i];
    assert FindServer(all, name) == Some(i) by {
      FindBeforeAppended(earlier, server, name);
    }
    var u := Update(Present(after), Some(name), updateScript, exitOk, later);
    var login := StoredLogin(earlier[i].login_type, updateScript);
    assert (u.invoked.Some? <==> login.Ok?)
           && (login.Ok? ==> u.invoked.value.request == InstallRequest(login.value.value, earlier[i].install_path, earlier[i].app_id)) by {
      assert Registered(all, name);
      UpdateRegistered(after, name, updateScript, exitOk, later);
    }
    assert u.saved.Some? ==> u.saved.value.installed_servers == earlier[i := UpdateTimestamp(earlier[i], later)] + [server] by {
      if u.saved.Some? {
        assert u.invoked.Some?;
        assert ChooseTarget(all, Some(name), updateScript) == Ok(Asked(name, updateScript));
        assert u.saved.value.installed_servers == all[i := UpdateTimestamp(all[i], later)];
        UpdateBeforeAppend(earlier, i, UpdateTimestamp(earlier[i], later), server);
      }
    }
  }
}

=== FILE: text.dfy ===
/** The string operations the source borrows from Rust's standard library:
    `u32` display and parsing, `split('/').last()`, ASCII lower-casing and
    substring search. */
module Text {
  import opened Base

  predicate IsDigit(c: char) {
    '0' <= c <= '9'
  }

  predicate AllDigits(s: string) {
    forall i :: 0 <= i < |s| ==> IsDigit(s[i])
  }

  function DigitValue(c: char): nat
    requires IsDigit(c)
  {
    c as int - '0' as int
  }

  function DigitChar(d: nat): (c: char)
    requires d < 10
    ensures IsDigit(c) && DigitValue(c) == d
  {
    ('0' as int + d) as char
  }

  /** The number a run of decimal digits denotes, most significant first
      (0 for the empty run). */
  function DigitsValue(s: string): nat
    requires AllDigits(s)
  {
    if |s| == 0 then 0 else DigitsValue(s[..|s| - 1]) * 10 + DigitValue(s[|s| - 1])
  }

  /** `Display` of an unsigned integer: decimal digits without leading zeros. */
  function Decimal(n: nat): (s: string)
    ensures |s| > 0 && AllDigits(s)
    ensures DigitsValue(s) == n
    ensures s[0] == '0' ==> s == "0"
  {
    if n < 10 then [DigitChar(n)]
    else
      var s := Decimal(n / 10) + [DigitChar(n % 10)];
      assert s[..|s| - 1] == Decimal(n / 10);
      s
  }

  /** The text `str::parse` reads digits from: a leading `+` is dropped. */
  function Unsigned(s: string): (d: string)
    ensures |s| > 0 && s[0] == '+' ==> s == "+" + d
    ensures (|s| == 0 || s[0] != '+') ==> d == s
  {
    if |s| > 0 && s[0] == '+' then s[1..] else s
  }

  /** `str::parse::<u32>`: an optional leading `+`, then at least one decimal
      digit and nothing else, denoting a value that fits in 32 bits; a value
      above `u32::MAX` is an overflow error. */
  function ParseU32(s: string): (r: Option<U32>)
    ensures r.Some? ==> forall i :: 0 <= i < |s| ==> IsDigit(s[i]) || (i == 0 && s[i] == '+')
    ensures r.Some? <==> |Unsigned(s)| > 0 && AllDigits(Unsigned(s)) && DigitsValue(Unsigned(s)) <= MaxU32
    ensures r.Some? ==> r.value == DigitsValue(Unsigned(s))
    ensures |s| > 0 && AllDigits(s) && DigitsValue(s) <= MaxU32 ==> r == Some(DigitsValue(s))
    ensures |s| == 0 || s == "+" ==> r.None?
  {
    var digits := Unsigned(s);
    if |digits| == 0 || !AllDigits(digits) then None
    else if DigitsValue(digits) <= MaxU32 then Some(DigitsValue(digits))
    else None
  }

  /** A digit string denoting more than `u32::MAX` does not parse, with or
      without a leading `+`. */
  lemma ParseOverflow(d: string)
    requires |d| > 0 && AllDigits(d) && DigitsValue(d) > MaxU32
    ensures ParseU32(d).None? && ParseU32("+" + d).None?
  {
    assert Unsigned("+" + d) == d;
  }

  /** A leading `+` does not change the value parsed. */
  lemma ParsePlus(d: string)
    requires |d| > 0 && IsDigit(d[0])
    ensures ParseU32("+" + d) == ParseU32(d)
  {
    assert Unsigned("+" + d) == d;
  }

  /** Parsing a displayed id gives the id back. */
  lemma ParseDecimal(n: U32)
    ensures ParseU32(Decimal(n)) == Some(n)
  {
  }

  /** `s.split('/').last().unwrap()`: the text after the last `/`, or all of `s`
      when it has none. `split` always yields at least one piece, so the
      `unwrap` never fails. */
  function LastSegment(s: string): (r: string)
    ensures '/' !in r
    ensures |r| <= |s| && s[|s| - |r|..] == r
    ensures |r| < |s| ==> s[|s| - |r| - 1] == '/'
  {
    if |s| == 0 then ""
    else if s[|s| - 1] == '/' then ""
    else
      var r := LastSegment(s[..|s| - 1]) + [s[|s| - 1]];
      assert s[..|s| - 1][|s| - |r|..] == r[..|r| - 1];
      r
  }

  /** The last segment is the only suffix without `/` that is either all of
      the text or preceded by `/`. */
  lemma {:induction false} LastSegmentUnique(s: string, t: string)
    requires '/' !in t
    requires |t| <= |s| && s[|s| - |t|..] == t
    requires |t| < |s| ==> s[|s| - |t| - 1] == '/'
    ensures LastSegment(s) == t
  {
    if |s| > 0 && s[|s| - 1] != '/' {
      var s', t' := s[..|s| - 1], t[..|t| - 1];
      assert s'[|s'| - |t'|..] == t';
      LastSegmentUnique(s', t');
      assert t == t' + [s[|s| - 1]];
    }
  }

  /** A directory composed as `base + "/" + name` ends in `name` whenever
      the name itself holds no `/`. */
  lemma LastSegmentOfJoin(base: string, name: string)
    requires '/' !in name
    ensures LastSegment(base + "/" + name) == name
  {
    var s := base + "/" + name;
    assert s[|s| - |name|..] == name;
    assert s[|s| - |name| - 1] == '/';
    LastSegmentUnique(s, name);
  }

  /** `s.split_once(' ')`: the text before and after the first space. */
  function SplitAtSpace(s: string): (r: Option<(string, string)>)
    ensures r.None? <==> ' ' !in s
    ensures r.Some? ==> ' ' !in r.value.0 && s == r.value.0 + " " + r.value.1
  {
    if |s| == 0 then None
    else if s[0] == ' ' then Some(("", s[1..]))
    else match SplitAtSpace(s[1..])
      case None => None
      case Some((a, b)) =>
        assert s == [s[0]] + s[1..];
        Some(([s[0]] + a, b))
  }

  /** Splitting `a + " " + b` at its first space gives back `a` and `b`
      whenever `a` holds no space. */
  lemma {:induction false} SplitAtSpaceJoin(a: string, b: string)
    requires ' ' !in a
    ensures SplitAtSpace(a + " " + b) == Some((a, b))
  {
    var s := a + " " + b;
    if |a| > 0 {
      assert s[0] == a[0];
      assert s[1..] == a[1..] + " " + b;
      SplitAtSpaceJoin(a[1..], b);
      assert [a[0]] + a[1..] == a;
    } else {
      assert s[1..] == b;
    }
  }

  predicate IsPrefix(p: string, s: string) {
    |p| <= |s| && s[..|p|] == p
  }

  /** `sub` occurs in `s` starting at index `i`. */
  predicate OccursAt(s: string, sub: string, i: int) {
    0 <= i && i + |sub| <= |s| && s[i..i + |sub|] == sub
  }

  /** `str::contains`: try every start position from the left. */
  predicate Contains(s: string, sub: string)
    decreases |s|
  {
    IsPrefix(sub, s) || (|s| > 0 && Contains(s[1..], sub))
  }

  /** The search agrees with the plain definition of an occurrence. */
  lemma {:induction false} ContainsIffOccurs(s: string, sub: string)
    ensures Contains(s, sub) <==> exists i :: OccursAt(s, sub, i)
    decreases |s|
  {
    if IsPrefix(sub, s) {
      assert OccursAt(s, sub, 0);
    } else if |s| == 0 {
      assert forall i :: !OccursAt(s, sub, i);
    } else {
      ContainsIffOccurs(s[1..], sub);
      forall i | OccursAt(s[1..], sub, i)
        ensures OccursAt(s, sub, i + 1)
      {
        assert s[1..][i..i + |sub|] == s[i + 1..i + 1 + |sub|];
      }
      forall i | OccursAt(s, sub, i)
        ensures OccursAt(s[1..], sub, i - 1)
      {
        assert i != 0;
        assert s[1..][i - 1..i - 1 + |sub|] == s[i..i + |sub|];
      }
    }
  }

  /** The empty filter is contained in every text. */
  lemma ContainsEmpty(s: string)
    ensures Contains(s, "")
  {
  }

  /** ASCII lower-casing; every other character is left as it is. */
  function LowerChar(c: char): char {
    if 'A' <= c <= 'Z' then (c as int - 'A' as int + 'a' as int) as char else c
  }

  function Lower(s: string): (r: string)
    ensures |r| == |s|
    ensures forall i :: 0 <= i < |s| ==> r[i] == LowerChar(s[i])
    ensures forall i :: 0 <= i < |r| ==> !('A' <= r[i] <= 'Z')
  {
    seq(|s|, i requires 0 <= i < |s| => LowerChar(s[i]))
  }

  /** Lower-casing twice is lower-casing once. */
  lemma LowerIdempotent(s: string)
    ensures Lower(Lower(s)) == Lower(s)
  {
  }
}
